=== FILE: README.md ===
# Gaze-attention engine: a Dafny model

This project models the `Attention` component of the InteraWare creature
scripts. The component decides, on every fixed-update tick, where a virtual
character looks:

1. **Salience update (CompAttention).** For every human in the person
   registry, it recomputes a salience from planar distance. It also updates
   a salience from approach speed, a one-sided leaky integrator, and
   remembers the distance for the next tick.
2. **Gaze transition (GazeTransition).** It advances the dwell timer. When
   the look controller is idle and the drawn dwell time has passed, it picks
   a new target:
   - it filters candidates;
   - it weights each by angular proximity to the current gaze;
   - it normalises, adds a top-down-attention (TDA) bias, and normalises
     again;
   - it samples by inverse CDF against one random draw.
3. **Commit (ChangeGazeTarget).** It writes the look controller's target,
   speed, stare and straight fields. It draws the next dwell time by bounded
   rejection sampling, restarts the timer and updates the current target.
4. **Overrides and driver.** `OverrideGazeTarget` and
   `OverrideGazeTransitionTime` are the public overrides. `FixedUpdate`
   takes the first registry person when there is no target yet.

The model is functional:
- An immutable `Engine` record holds the target, the timers, the perception
  map and the look-controller fields.
- Each operation is a pure function from that record to a new one.
- The inputs the code takes from the host are explicit parameters: the
  registry, the frame time, the planar distances, the angle weights, the
  controller's busy flag and the `Random.value` draws.
- Floats are modelled as `real`.

Files:
- `types.dfy`: the data model.
- `weights.dfy`: clamps and running sums.
- `salience.dfy`: CompAttention.
- `selection.dfy`: candidate filter, normalisation, bias and pick.
- `dwell.dfy`: LinearFunction and the rejection sampler.
- `attention.dfy`: commit, gate, overrides, driver and multi-tick runs.

Main results:
- **Salience ranges.** Distance salience lies in [0.07, 1]. It is 1 at or
  below 0.5 m, 0.07 at or beyond 2 m, and non-increasing in distance. The
  approach salience stays in [0, 1]. While the person approaches it is the
  larger of its old value and the clamped speed/10. Otherwise it loses
  exactly `dt/3`, stopping at zero. Iterating this one-tick update for a
  person standing still (`Salience.Fade`) loses 1/3 per second however the
  time is split into ticks, so any value in [0, 1] is gone after 3 s. Every
  tick of `FixedUpdate` that is not idle applies the update once to each
  registry human (`Attention.FixedUpdateSalience`).
- **Normalisation.** With the strictly positive angle weights, each
  normalisation yields weights summing to 1. The code's zero-total branch
  divides by the zero total a second time. The model proves that this
  branch is taken only for an empty candidate list, where there is nothing
  to divide.
- **Selection weights.** Each candidate's final weight is its share of the
  angular weight plus its TDA boost `20·max(0, tda − tda_current)`, divided
  by 1 plus the total boost. With no TDA advantage the weights are just the
  normalised angular weights.
- **Inverse-CDF pick.** Candidate k is picked exactly when the draw falls in
  `[Σ_{j<k} p_j, Σ_{j≤k} p_j)`. Over a non-empty normalised list, a draw
  below 1 always picks exactly one candidate. With the gate open, a tick
  moves the gaze exactly when the first draw selects someone, under the
  tick's own angle weights and the TDAs from before the tick, and to that
  person (`Attention.FixedUpdateSelects`).
- **Dwell gate.** Every transition of a tick draws the next dwell time from
  the draws after the selection draw, for the new target's TDA
  (`Attention.FixedUpdateDwell`). No tick of a run moves the gaze while the
  elapsed time has not passed the dwell time `nextTime` it starts from
  (`Attention.DwellHolds`). None does either while the look controller
  stays busy, however long the run (`Attention.BusyHolds`).
- **Dwell time.** The rejection loop runs at most 100 times. The dwell time
  is `x/30 + 0.5·attn` with `x ∈ [0, 100 + 50·attn]`.
- **Invariant.** Saliences in [0, 1], non-negative TDA and a non-negative
  timer hold after every operation.

## Model

| member | source | states |
|---|---|---|
| `Salience.DistanceSalience` | Scripts/Creature/Attention/Attention.cs:87-91 | distance salience lies in [0.07, 1]; it is exactly 1 at or below 0.5 m and exactly 0.07 at or beyond 2 m |
| `Salience.DistanceSalienceMonotone` | Scripts/Creature/Attention/Attention.cs:89-91 | a nearer person is never less salient than a farther one |
| `Salience.DistanceSalienceStrict` | Scripts/Creature/Attention/Attention.cs:89-91 | between 0.5 m and 2 m the salience strictly decreases with distance |
| `Salience.DistanceSalienceAtOneMetre` | Scripts/Creature/Attention/Attention.cs:89-91 | a person one metre away has distance salience 0.69 |
| `Salience.ApproachSalience` | Scripts/Creature/Attention/Attention.cs:94-103 | the approach salience stays in [0, 1] when it starts there. When the distance shrank, it is the larger of the old value and the clamped speed/10. Otherwise it never rises: it is the old value minus dt/3, or zero once that would go below zero. It rises only when the person approaches |
| `Salience.FadeIsLinear` | Scripts/Creature/Attention/Attention.cs:99-103 | a person standing still for a series of ticks ends with max(0, prev − total time/3), however the time is split into ticks |
| `Salience.FadeClears` | Scripts/Creature/Attention/Attention.cs:99-103 | a person standing still for 3 s of ticks or more has approach salience zero, from any start in [0, 1] |
| `Salience.ApproachSalienceClears` | Scripts/Creature/Attention/Attention.cs:99-103 | without approach, a tick of at least 3 s clears any salience in [0, 1] to zero |
| `Salience.UpdatePerson` | Scripts/Creature/Attention/Attention.cs:83-112 | one registry entry creates the person's record. A human gets its distance remembered, its distance salience recomputed, and its approach salience advanced from its previous value and previous distance. A non-human's record and every other person's record are unchanged. The TDA is never touched, and the ranges are kept |
| `Salience.CompAttention` | Scripts/Creature/Attention/Attention.cs:81-114 | afterwards every registry person has a record; persons outside the registry are unchanged; no TDA changes; the saliences stay in [0, 1] |
| `Salience.CompAttentionHuman` | Scripts/Creature/Attention/Attention.cs:85-104 | after the pass, every human of the registry has lastDistance equal to its current planar distance and the distance salience of that distance |
| `Salience.CompAttentionApproach` | Scripts/Creature/Attention/Attention.cs:82-103 | in a registry listing each person once, a human's approach salience after the pass is the one-tick update of its record from before the pass |
| `Salience.CompAttentionNonHuman` | Scripts/Creature/Attention/Attention.cs:109-112 | after the pass, a non-human's record is exactly what it was |
| `Selection.Candidates` | Scripts/Creature/Attention/Attention.cs:144-160 | an index is a candidate if and only if it names a registry person that is not the current target and has z ≥ 0.3 and y ≤ 2.0; candidates keep registry order |
| `Selection.Normalize` | Scripts/Creature/Attention/Attention.cs:162-171 | length kept, weights stay positive, each weight is its input divided by the total, and a non-empty list sums to 1 |
| `Selection.ZeroTotalOnlyWhenEmpty` | Scripts/Creature/Attention/Attention.cs:162-171 | for positive weights the total is zero if and only if the list is empty, so the second division in the zero branch never runs |
| `Selection.NormalizeIdempotent` | Scripts/Creature/Attention/Attention.cs:182-193 | normalising an already normalised list changes nothing |
| `Selection.Bias` | Scripts/Creature/Attention/Attention.cs:173-180 | a candidate whose TDA strictly exceeds the current target's gains exactly 20 times the difference. Every other weight is unchanged. A weight grows if and only if the TDA is higher. Length, order and positivity are kept |
| `Selection.BiasKeepsOrder` | Scripts/Creature/Attention/Attention.cs:174-180 | a candidate with at least the weight and at least the TDA of another still has at least its weight after the bias |
| `Selection.Pick` | Scripts/Creature/Attention/Attention.cs:195-204 | the picked index is the first whose cumulative weight exceeds the draw; no pick means no cumulative weight exceeds it |
| `Selection.PickIsInverseCdf` | Scripts/Creature/Attention/Attention.cs:195-204 | over non-negative weights, index k is picked if and only if the draw lies in [weight before k, weight through k) |
| `Selection.PickNoneIff` | Scripts/Creature/Attention/Attention.cs:196-204 | over non-negative weights, nothing is picked if and only if the draw is at least the total weight |
| `Selection.PickNormalized` | Scripts/Creature/Attention/Attention.cs:196-204 | over a non-empty normalised list, a candidate is picked if and only if the draw is below 1 |
| `Selection.AngularWeights` | Scripts/Creature/Attention/Attention.cs:154 | the clamp at 0 leaves the positive angle weight of each candidate unchanged |
| `Selection.Boost` | Scripts/Creature/Attention/Attention.cs:174-179 | the weight added to a candidate is never negative, and is positive exactly when its TDA exceeds the current target's |
| `Selection.ReweightShares` | Scripts/Creature/Attention/Attention.cs:162-193 | after normalise, bias and normalise, entry j times (1 + total boost) equals its normalised weight plus its boost |
| `Selection.SelectionWeights` | Scripts/Creature/Attention/Attention.cs:149-193 | the final weights have one entry per candidate, are positive, and sum to 1 when there is a candidate |
| `Selection.SelectionWeightsShares` | Scripts/Creature/Attention/Attention.cs:149-193 | candidate j's final weight times (1 + total boost) is its share of the angular weight plus 20·max(0, its TDA − the current target's TDA) |
| `Selection.SelectionWeightsUnbiased` | Scripts/Creature/Attention/Attention.cs:162-193 | when no candidate has more TDA than the current target, the final weights are the normalised angular weights |
| `Selection.PickIntervals` | Scripts/Creature/Attention/Attention.cs:195-204 | over non-negative weights, every index is picked exactly on its own interval of the draw |
| `Selection.ChooseIsInverseCdf` | Scripts/Creature/Attention/Attention.cs:195-204 | the person of candidate j is chosen whenever the draw lies in j's interval; a chosen person always comes from such an interval; nobody is chosen exactly when the draw reaches the total |
| `Selection.SelectTarget` | Scripts/Creature/Attention/Attention.cs:140-206 | a selected person is in the registry, is not the current target and passes the position check; with no such person nothing is selected |
| `Selection.SelectTargetIsInverseCdf` | Scripts/Creature/Attention/Attention.cs:140-206 | against a draw r ≥ 0, the registry person of candidate j is selected whenever r lies in j's interval of cumulative selection weight. Every selection comes from such an interval. Nobody is selected exactly when r reaches the total weight |
| `Selection.SelectTargetReadsTda` | Scripts/Creature/Attention/Attention.cs:173-180 | the selection reads a perception record only through its TDA: two record maps that agree on every TDA select the same person |
| `Selection.SelectTargetSucceeds` | Scripts/Creature/Attention/Attention.cs:144-204 | with at least one eligible person, a draw below 1 always selects someone |
| `Dwell.LinearFunction` | Scripts/Creature/Attention/Attention.cs:253-257 | the result lies on the line through the two points and equals their y values at their x values |
| `Dwell.XScale` | Scripts/Creature/Attention/Attention.cs:228 | the sampling width is 100 + 50·attention |
| `Dwell.YScale` | Scripts/Creature/Attention/Attention.cs:229 | the sampling height is 79 − 47·attention |
| `Dwell.RejectionSample` | Scripts/Creature/Attention/Attention.cs:231-241 | the loop runs at most 100 iterations. The returned x is the x of the last iteration and lies in [0, width]. That iteration's point is accepted unless all 100 ran. Every earlier point was rejected |
| `Dwell.DwellTime` | Scripts/Creature/Attention/Attention.cs:228-242 | the dwell time is x/30 + 0.5·attention, where x is the first accepted sample among 100, or the last one drawn. It lies in [0.5·attention, (100 + 50·attention)/30 + 0.5·attention] |
| `Attention.ChangeGazeTarget` | Scripts/Creature/Attention/Attention.cs:214-247 | a null target changes nothing. Otherwise: the target becomes current; the look controller gets target, speed 1 and stare = TDA; straight = forceStraight ∨ (human ∧ ¬previous straight); the dwell time is drawn; the timer restarts at 0; at most 200 draws are used |
| `Attention.GazeTransition` | Scripts/Creature/Attention/Attention.cs:116-212 | the timer always grows by dt first. If the controller is busy or the dwell time is not strictly exceeded, nothing else changes. A tick that selects nothing changes only the timer; when its gate was open it still uses the selection draw. A transition needs the open gate and goes to an eligible registry person. With the gate open, the tick moves exactly when the first draw selects someone, and to that person. A transition aims the look controller at that person with speed 1, stare = its TDA and straight = human ∧ ¬previous straight, and leaves the records unchanged |
| `Attention.SelectAndCommit` | Scripts/Creature/Attention/Attention.cs:195-210 | with the gate open, one draw is taken for the pick. When it selects nobody, the engine is unchanged and only that draw is used. Otherwise the selected registry person, eligible against the current target, becomes the target, the timer restarts at 0 and the look controller is aimed at them (speed 1, stare = TDA, straight = human ∧ ¬previous straight). The records are unchanged and at most 201 draws are used |
| `Attention.GazeTransitionCommits` | Scripts/Creature/Attention/Attention.cs:195-247 | when the first draw selects a person, the tick aims the look controller at them with speed 1, stare = their TDA and straight = human ∧ ¬previous straight (never forced). The dwell time is drawn from the draws after the selection draw, two per rejection try, and the rest are handed back. The records and timeUntil are unchanged |
| `Attention.GazeTransitionMoves` | Scripts/Creature/Attention/Attention.cs:139-210 | with the gate open, an eligible person and a draw below 1, the tick always moves the gaze |
| `Attention.OverrideGazeTarget` | Scripts/Creature/Attention/Attention.cs:65-70 | a non-negative attention is stored as the person's TDA, a negative one leaves it; the person's saliences and every other record are unchanged. The person becomes the target and the timer restarts at 0. The look controller gets target, speed 1, stare = TDA and straight = forceStraight ∨ (human ∧ ¬previous straight). The dwell time is drawn for that TDA. A null person with an attention to set is a null dereference; a null person otherwise changes nothing |
| `Attention.OverrideGazeTransitionTime` | Scripts/Creature/Attention/Attention.cs:72-76 | the timer restarts at 0, the dwell time becomes the given time, and the target, records and look controller are unchanged |
| `Attention.OverrideHoldsGaze` | Scripts/Creature/Attention/Attention.cs:72-76 | after a scripted dwell time t, a tick no longer than t does not move the gaze |
| `Attention.FixedUpdate` | Scripts/Creature/Attention/Attention.cs:49-60 | with no target and an empty registry, the tick is idle (not even the timer moves). With no target, the first registry person becomes the target. A transition needs an idle controller and an exceeded dwell time. It goes to an eligible person other than the target it leaves, with the look controller aimed at that person (speed 1, stare = its TDA, straight = human ∧ ¬previous straight). Unless the tick is idle, the records afterwards are those of the salience update. TDA is never changed and the invariant is kept |
| `Attention.Prepare` | Scripts/Creature/Attention/Attention.cs:49-57 | with no target the first registry person becomes the target, otherwise the target stays. The records become those of the salience update, with every TDA unchanged. Timer, dwell time and look controller stay, and the invariant is kept |
| `Attention.FixedUpdateSelects` | Scripts/Creature/Attention/Attention.cs:195-204 | on a tick with an idle controller and an exceeded dwell time, the gaze moves if and only if the first draw selects someone from the tick's registry and angle weights, against the TDAs from before the tick and the target the tick starts from. A tick that selects nobody uses exactly that one draw |
| `Attention.FixedUpdateCommits` | Scripts/Creature/Attention/Attention.cs:214-227 | on such a tick, when the first draw selects person p, p becomes the target and the look controller gets target p, speed 1, stare = p's TDA from before the tick and straight = p human ∧ ¬previous straight |
| `Attention.FixedUpdateDwell` | Scripts/Creature/Attention/Attention.cs:228-242 | on such a tick, when the first draw selects p, the new dwell time is the rejection-sampled dwell time for p's TDA drawn from the draws after the selection draw |
| `Attention.FixedUpdateDraws` | Scripts/Creature/Attention/Attention.cs:195-242 | on such a tick, when the first draw selects p, the tick uses the selection draw plus two draws per rejection try of p's dwell time, and hands back the rest |
| `Attention.FixedUpdateSalience` | Scripts/Creature/Attention/Attention.cs:49-60 | after a tick that is not idle, each registry human has its planar distance remembered and its distance salience recomputed. Its approach salience is advanced by one tick when the registry lists each person once. Each non-human keeps its record |
| `Attention.Run` | Scripts/Creature/Attention/Attention.cs:49-60 | over any run of ticks the saliences stay in [0, 1], TDA stays non-negative and unchanged, and the timer stays non-negative |
| `Attention.BusyHolds` | Scripts/Creature/Attention/Attention.cs:116-125 | while the look controller stays busy, no tick of a run moves the gaze, and the target, dwell time and look controller stay |
| `Attention.StartMovesOnFirstTick` | Scripts/Creature/Attention/Attention.cs:36-60 | a fresh component satisfies the invariant. On its first tick, with the controller idle, someone other than the first registry person eligible and a draw below 1, it moves the gaze at once |
| `Attention.DwellHolds` | Scripts/Creature/Attention/Attention.cs:116-139 | while the elapsed time has not passed the drawn dwell time, no tick of a run moves the gaze, and the target, dwell time and look controller stay |

## Left out

- Gizmo drawing (Attention.cs lines 16-21) is editor-only.
- `Vector3.Angle` and `Mathf.Exp` are not computed. For each registry person the host supplies the angle weight `exp(-angle/10)`, the angle being measured at the head between the current target and that person. The model requires it to be strictly positive, which is the range of `exp`. The head position enters only through these weights.
- `pos.magnitude` is not computed. Each `Person` carries its planar distance, supplied by the host.
- `Random.value` becomes an explicit sequence of draws in [0, 1]. Each operation requires enough draws for its worst case and returns the unused rest: 200 for a commit, 201 for a tick.
- IEEE float rounding, NaN and infinity are not modelled. Floats are exact reals.
- The unused `Clip` helper (lines 249-251) is left out.
- The look controller is reduced to the four fields this component writes (target, speed, stare, straight) plus the `inAction` flag, which is a per-tick input. Any change the controller makes to `straight` on its own is not modelled.
- The `Person.persons` registry becomes an explicit ordered sequence per tick. Object identity becomes an id, and `Registry` states that one id means one record.
- `AddPerception` at the read-only sites (lines 176, 217, 228-229 and 242) lazily creates a default record. The model reads through a get-or-default lookup instead, which observes the same values. CompAttention and OverrideGazeTarget do write the record.
- `Attention.GazeTransition` requires a current target. The driver always sets one first. The source's fallback direction for a null target (lines 131-135) only feeds the angle weights, and line 176 would dereference the null target.
- `Attention.FixedUpdate` requires `Time.fixedDeltaTime > 0`. The host engine guarantees this, and the code divides by it.
- The model assumes `Valid`, which includes non-negative TDA: inside this component only the override writes the TDA, and only a non-negative value. A negative TDA written by other code is not modelled. At TDA −2 the sampling width would be zero and the code would divide by it.
- Salience.CompAttentionApproach: stated only for a registry that lists each person once. The code does not check this. A person listed twice would have its approach salience updated twice in one tick, the second time against the distance it has just stored.
- Attention.FixedUpdateSalience: the approach-salience clause has the same once-listed condition, for the same reason.
- The model covers a single `Attention` component. The code keeps each person's `AttentionPerception` record on the shared `Person` object (lines 67, 83, 176 and 217), so every `Attention` component in the scene reads and writes the same records. Here each engine owns its own record map, so records shared between components, and the interference between components through them, are not modelled.
- Attention.FixedUpdateDraws: states how many draws a transition uses, not which. `rest` is a suffix of the draws (the `TookAtMost` clause of `Attention.FixedUpdate`), so a count of 1 + 2·tries means `rest` is the draws from that index on.
- `Scripts/Creature/Body/Action/KeyPose.cs` is not part of this model. It is editor handles, quaternion frame conversion, native IK queries and bone dispatch.
- `Assets/Springhead/Scripts/SprObjectBehaviour/SprBehaviour.cs` is not part of this model. It is native DLL loading and component lifecycle glue.

## Notes on the code

- The zero-total branch of both normalisations recomputes the same total and divides by it again. It has no uniform fallback. The model follows the code and proves that the branch is reachable only with no candidates.
- The gate test is strict: a transition needs `nextGazeTransitionTime < timeFromGazeTransition`. Equality still dwells.
- `Random.value` can return exactly 1. Against a normalised list, that draw selects nothing, and the tick passes without a transition (`Selection.PickNormalized`).
- With no target and an empty registry, `FixedUpdate` returns before the timer advances.

=== FILE: attention.dfy ===
/**
  The attention component: committing a gaze target, the dwell gate of
  GazeTransition, the two public overrides, and the fixed-update driver.
  Each operation is a transition of the Engine record; the Random.value
  draws it needs are taken from the front of `draws` and the rest handed
  back.
 */
module Attention {
  import opened Types
  import opened Weights
  import opened Salience
  import opened Selection
  import opened Dwell

  const Speed: real := 1.0

  /** The most draws one tick can take: the selection draw and two per
      rejection attempt. */
  const TickDraws: nat := 1 + 2 * MaxTries

  /** The result of an operation: the new state, the draws left over, and
      whether a gaze target was sent to the look controller. */
  datatype Step = Step(engine: Engine, rest: seq<real>, actuated: bool)

  /** `rest` is what is left of `draws` after taking at most `n` from the front. */
  predicate TookAtMost(draws: seq<real>, rest: seq<real>, n: nat)
  {
    |draws| - n <= |rest| <= |draws| && rest == draws[|draws| - |rest|..]
  }

  lemma TookKeepsUnit(draws: seq<real>, rest: seq<real>, n: nat)
    requires UnitDraws(draws) && TookAtMost(draws, rest, n)
    ensures UnitDraws(rest)
  {
    var k := |draws| - |rest|;
    forall i | 0 <= i < |rest| ensures 0.0 <= rest[i] <= 1.0 {
      assert rest[i] == draws[k + i];
    }
  }

  /** Every suffix of a run of unit draws is one. */
  lemma UnitDrop(draws: seq<real>, i: nat)
    requires i <= |draws| && UnitDraws(draws)
    ensures UnitDraws(draws[i..])
  {
    forall j | 0 <= j < |draws| - i ensures 0.0 <= draws[i..][j] <= 1.0 {
      assert draws[i..][j] == draws[i + j];
    }
  }

  /** ChangeGazeTarget: actuate the look controller towards the target,
      draw the next dwell time, restart the timer. A null target changes
      nothing. */
  function ChangeGazeTarget(e: Engine, target: Option<Person>, forceStraight: bool, draws: seq<real>): (s: Step)
    requires Valid(e)
    requires 2 * MaxTries <= |draws| && UnitDraws(draws)
    ensures Valid(s.engine)
    ensures TookAtMost(draws, s.rest, 2 * MaxTries) && UnitDraws(s.rest)
    ensures s.actuated <==> target.Some?
    ensures target.None? ==> s == Step(e, draws, false)
    ensures target.Some? ==>
      var p := target.value;
      var attention := Get(e.percepts, p.id).attention;
      && s.engine.current == Some(p.id)
      && s.engine.timeFrom == 0.0
      && s.engine.look.target == Some(p.id)
      && s.engine.look.speed == Speed
      && s.engine.look.stare == attention
      && (s.engine.look.straight <==> forceStraight || (p.human && !e.look.straight))
      && s.engine.nextTime == DwellTime(attention, draws).time
      && AttentionDwell * attention <= s.engine.nextTime <= XScale(attention) / XPerSecond + AttentionDwell * attention
      && s.rest == draws[2 * DwellTime(attention, draws).tries..]
      && s.engine.percepts == e.percepts
      && s.engine.timeUntil == e.timeUntil
      && |s.rest| < |draws|
  {
    match target
    case None => Step(e, draws, false)
    case Some(p) =>
      var attention := Get(e.percepts, p.id).attention;
      assert PerceptionOk(Get(e.percepts, p.id));
      var straight := forceStraight || (p.human && !e.look.straight);
      var look := Look(Some(p.id), Speed, attention, straight);
      var dwell := DwellTime(attention, draws);
      var next := dwell.time;
      var rest := draws[2 * dwell.tries..];
      TookKeepsUnit(draws, rest, 2 * MaxTries);
      Step(e.(look := look, nextTime := next, timeFrom := 0.0, current := Some(p.id)), rest, true)
  }

  /** The dwell gate: a new target is considered only when the look
      controller is idle and the dwell time is strictly exceeded. */
  predicate GateOpen(e: Engine, inAction: bool)
  {
    !inAction && e.nextTime < e.timeFrom
  }

  /** The open-gate half of GazeTransition: select a target against the
      first draw and commit it with the draws after it. */
  function SelectAndCommit(e: Engine, persons: seq<Person>, angleWeights: seq<real>, draws: seq<real>): (s: Step)
    requires Valid(e) && e.current.Some?
    requires |angleWeights| == |persons| && Positive(angleWeights)
    requires TickDraws <= |draws| && UnitDraws(draws)
    ensures Valid(s.engine)
    ensures TookAtMost(draws, s.rest, TickDraws) && UnitDraws(s.rest)
    ensures s.engine.current.Some? && s.engine.percepts == e.percepts
    ensures
      var sel := SelectTarget(persons, angleWeights, e.percepts, e.current.value, draws[0]);
      && (s.actuated <==> sel.Some?)
      && (sel.None? ==> s == Step(e, draws[1..], false))
      && (sel.Some? ==>
            && sel.value in persons && Eligible(sel.value, e.current.value)
            && s.engine.current == Some(sel.value.id)
            && s.engine.timeFrom == 0.0
            && s.engine.look == Look(Some(sel.value.id), Speed, Get(e.percepts, sel.value.id).attention, sel.value.human && !e.look.straight))
  {
    var sel := SelectTarget(persons, angleWeights, e.percepts, e.current.value, draws[0]);
    var rest := draws[1..];
    TookKeepsUnit(draws, rest, 1);
    if sel.None? then
      Step(e, rest, false)
    else
      ChangeGazeTarget(e, sel, false, rest)
  }

  /** GazeTransition: advance the timer; when the gate is open, select a
      target against one draw and commit it. `e.current` is set, as the
      driver guarantees before calling. */
  function GazeTransition(e: Engine, persons: seq<Person>, angleWeights: seq<real>, inAction: bool, dt: real, draws: seq<real>): (s: Step)
    requires Valid(e) && e.current.Some?
    requires dt > 0.0
    requires |angleWeights| == |persons| && Positive(angleWeights)
    requires TickDraws <= |draws| && UnitDraws(draws)
    ensures Valid(s.engine)
    ensures TookAtMost(draws, s.rest, TickDraws) && UnitDraws(s.rest)
    ensures s.engine.current.Some?
    ensures s.engine.percepts == e.percepts
    // gate closed: only the timer moved
    ensures !GateOpen(e.(timeFrom := e.timeFrom + dt), inAction) ==>
      s == Step(e.(timeFrom := e.timeFrom + dt), draws, false)
    // no transition: only the timer moved
    ensures !s.actuated ==> s.engine == e.(timeFrom := e.timeFrom + dt)
    // gate open but nothing picked: the selection draw was still used
    ensures GateOpen(e.(timeFrom := e.timeFrom + dt), inAction) && !s.actuated ==> s.rest == draws[1..]
    // a transition needs an open gate and goes to an eligible registry person
    ensures s.actuated ==>
      && GateOpen(e.(timeFrom := e.timeFrom + dt), inAction)
      && s.engine.timeFrom == 0.0
      && exists p :: p in persons && Eligible(p, e.current.value) && s.engine.current == Some(p.id) &&
           s.engine.look == Look(Some(p.id), Speed, Get(e.percepts, p.id).attention, p.human && !e.look.straight)
    // gate open: the tick moves exactly when the first draw selects someone, and to that person
    ensures GateOpen(e.(timeFrom := e.timeFrom + dt), inAction) ==>
      var sel := SelectTarget(persons, angleWeights, e.percepts, e.current.value, draws[0]);
      && (s.actuated <==> sel.Some?)
      && (sel.Some? ==> s.engine.current == Some(sel.value.id))
  {
    var e1 := e.(timeFrom := e.timeFrom + dt);
    if !GateOpen(e1, inAction) then
      Step(e1, draws, false)
    else
      var s := SelectAndCommit(e1, persons, angleWeights, draws);
      var sel := SelectTarget(persons, angleWeights, e1.percepts, e1.current.value, draws[0]);
      assert sel.Some? ==> var p := sel.value;
        p in persons && Eligible(p, e.current.value) && s.engine.current == Some(p.id) &&
        s.engine.look == Look(Some(p.id), Speed, Get(e.percepts, p.id).attention, p.human && !e.look.straight);
      s
  }

  /** A transition the tick makes: the first draw selected the person, the
      look controller is aimed at them with speed 1 and stare = their TDA,
      straight gaze alternates for humans (the tick never forces it), and
      the dwell time is drawn from the draws after the selection draw. */
  lemma GazeTransitionCommits(e: Engine, persons: seq<Person>, angleWeights: seq<real>, inAction: bool, dt: real, draws: seq<real>)
    requires Valid(e) && e.current.Some?
    requires dt > 0.0
    requires |angleWeights| == |persons| && Positive(angleWeights)
    requires TickDraws <= |draws| && UnitDraws(draws)
    requires GateOpen(e.(timeFrom := e.timeFrom + dt), inAction)
    requires SelectTarget(persons, angleWeights, e.percepts, e.current.value, draws[0]).Some?
    ensures
      var s := GazeTransition(e, persons, angleWeights, inAction, dt, draws);
      var p := SelectTarget(persons, angleWeights, e.percepts, e.current.value, draws[0]).value;
      var tda := Get(e.percepts, p.id).attention;
      && PerceptionOk(Get(e.percepts, p.id))
      && s.actuated
      && s.engine.current == Some(p.id)
      && s.engine.look == Look(Some(p.id), Speed, tda, p.human && !e.look.straight)
      && s.engine.nextTime == DwellTime(tda, draws[1..]).time
      && s.rest == draws[1 + 2 * DwellTime(tda, draws[1..]).tries..]
      && s.engine.percepts == e.percepts
      && s.engine.timeUntil == e.timeUntil
  {
    var rest := draws[1..];
    TookKeepsUnit(draws, rest, 1);
    var p := SelectTarget(persons, angleWeights, e.percepts, e.current.value, draws[0]).value;
    assert PerceptionOk(Get(e.percepts, p.id));
    var k := DwellTime(Get(e.percepts, p.id).attention, rest).tries;
    assert rest[2 * k..] == draws[1 + 2 * k..];
  }

  /** With the gate open, some eligible person, and a draw below 1, the
      tick always moves the gaze. */
  lemma GazeTransitionMoves(e: Engine, persons: seq<Person>, angleWeights: seq<real>, dt: real, draws: seq<real>)
    requires Valid(e) && e.current.Some?
    requires dt > 0.0
    requires |angleWeights| == |persons| && Positive(angleWeights)
    requires TickDraws <= |draws| && UnitDraws(draws)
    requires GateOpen(e.(timeFrom := e.timeFrom + dt), false)
    requires exists p :: p in persons && Eligible(p, e.current.value)
    requires draws[0] < 1.0
    ensures GazeTransition(e, persons, angleWeights, false, dt, draws).actuated
  {
    SelectTargetSucceeds(persons, angleWeights, e.percepts, e.current.value, draws[0]);
  }

  /** OverrideGazeTarget: optionally set the person's TDA (a negative
      `attention` means "leave it"), then commit the person as target.
      A missing person with an attention to set is a null dereference,
      modelled as None; a missing person otherwise changes nothing. */
  function OverrideGazeTarget(e: Engine, person: Option<Person>, attention: real, forceStraight: bool, draws: seq<real>): (s: Option<Step>)
    requires Valid(e)
    requires 2 * MaxTries <= |draws| && UnitDraws(draws)
    ensures s.None? <==> person.None? && attention >= 0.0
    ensures s.Some? ==> Valid(s.value.engine) && TookAtMost(draws, s.value.rest, 2 * MaxTries)
    ensures person.None? && attention < 0.0 ==> s == Some(Step(e, draws, false))
    ensures person.Some? ==>
      var p := person.value;
      var tda := if attention >= 0.0 then attention else Get(e.percepts, p.id).attention;
      && s.Some? && s.value.actuated
      && s.value.engine.current == Some(p.id)
      && s.value.engine.timeFrom == 0.0
      && s.value.engine.timeUntil == e.timeUntil
      // the look controller: target, speed, stare = TDA, and the straight rule
      && s.value.engine.look == Look(Some(p.id), Speed, tda, forceStraight || (p.human && !e.look.straight))
      // only the person's TDA is written; its saliences and every other record stay
      && Get(s.value.engine.percepts, p.id) == Get(e.percepts, p.id).(attention := tda)
      && (forall id :: id != p.id ==> Get(s.value.engine.percepts, id) == Get(e.percepts, id))
      // the dwell time is drawn for the (possibly new) TDA
      && s.value.engine.nextTime == DwellTime(tda, draws).time
      && s.value.rest == draws[2 * DwellTime(tda, draws).tries..]
      && AttentionDwell * tda <= s.value.engine.nextTime <= XScale(tda) / XPerSecond + AttentionDwell * tda
  {
    if attention >= 0.0 then
      match person
      case None => None
      case Some(p) =>
        var info := Get(e.percepts, p.id);
        var e1 := e.(percepts := e.percepts[p.id := info.(attention := attention)]);
        assert Valid(e1);
        Some(ChangeGazeTarget(e1, person, forceStraight, draws))
    else
      Some(ChangeGazeTarget(e, person, forceStraight, draws))
  }

  /** OverrideGazeTransitionTime: restart the timer with a scripted dwell time. */
  function OverrideGazeTransitionTime(e: Engine, time: real): (e': Engine)
    requires Valid(e)
    ensures Valid(e')
    ensures e'.timeFrom == 0.0 && e'.nextTime == time && e'.timeUntil == time
    ensures e'.current == e.current && e'.percepts == e.percepts && e'.look == e.look
  {
    e.(timeFrom := 0.0, timeUntil := time, nextTime := time)
  }

  /** What the host supplies for one fixed-update tick. `angleWeights[i]`
      is exp(-angle / 10) for registry person i, the angle being measured
      at the head between the current target and person i. */
  datatype Frame = Frame(persons: seq<Person>, dt: real, inAction: bool, angleWeights: seq<real>)

  predicate FrameOk(f: Frame)
  {
    f.dt > 0.0 && |f.angleWeights| == |f.persons| && Positive(f.angleWeights)
  }

  /** The part of a tick before the gaze transition: with no target yet the
      first registry person becomes the target, then the saliences of the
      registry are updated. Timer, dwell time, look and every TDA stay. */
  function Prepare(e: Engine, f: Frame): (e2: Engine)
    requires Valid(e) && FrameOk(f)
    requires e.current.Some? || |f.persons| > 0
    ensures Valid(e2)
    ensures e2.current == if e.current.Some? then e.current else Some(f.persons[0].id)
    ensures e2.percepts == CompAttention(e.percepts, f.persons, f.dt)
    ensures forall id :: Get(e2.percepts, id).attention == Get(e.percepts, id).attention
    ensures e2.look == e.look && e2.timeFrom == e.timeFrom && e2.nextTime == e.nextTime
  {
    var e1 := if e.current.None? then e.(current := Some(f.persons[0].id)) else e;
    e1.(percepts := CompAttention(e1.percepts, f.persons, f.dt))
  }

  /** FixedUpdate: with no target yet, take the first registry person (or
      idle if there is none); then update saliences and run the gaze
      transition. */
  function FixedUpdate(e: Engine, f: Frame, draws: seq<real>): (s: Step)
    requires Valid(e) && FrameOk(f)
    requires TickDraws <= |draws| && UnitDraws(draws)
    ensures Valid(s.engine)
    ensures TookAtMost(draws, s.rest, TickDraws) && UnitDraws(s.rest)
    ensures e.current.None? && |f.persons| == 0 ==> s == Step(e, draws, false)
    ensures s.engine.current.Some? <==> e.current.Some? || |f.persons| > 0
    ensures forall id :: Get(s.engine.percepts, id).attention == Get(e.percepts, id).attention
    ensures s.actuated ==> !f.inAction && e.nextTime < e.timeFrom + f.dt && s.engine.timeFrom == 0.0
    ensures !s.actuated ==> s.engine.look == e.look && s.engine.nextTime == e.nextTime
    ensures !s.actuated && (e.current.Some? || |f.persons| > 0) ==> s.engine.timeFrom == e.timeFrom + f.dt
    // bootstrap: with no target the first registry person becomes the target
    ensures !s.actuated && e.current.None? && |f.persons| > 0 ==> s.engine.current == Some(f.persons[0].id)
    ensures !s.actuated && e.current.Some? ==> s.engine.current == e.current
    // a transition goes to a plausibly placed registry person other than the target it leaves
    ensures s.actuated ==>
      var before := if e.current.Some? then e.current.value else f.persons[0].id;
      exists p :: p in f.persons && Eligible(p, before) && s.engine.current == Some(p.id) &&
        s.engine.look == Look(Some(p.id), Speed, Get(e.percepts, p.id).attention, p.human && !e.look.straight)
    // unless idle, the tick's records are those of the salience update
    ensures e.current.Some? || |f.persons| > 0 ==> s.engine.percepts == CompAttention(e.percepts, f.persons, f.dt)
  {
    if e.current.None? && |f.persons| == 0 then
      Step(e, draws, false)
    else
      var e2 := Prepare(e, f);
      var s := GazeTransition(e2, f.persons, f.angleWeights, f.inAction, f.dt, draws);
      assert s.actuated ==>
        var sel := SelectTarget(f.persons, f.angleWeights, e2.percepts, e2.current.value, draws[0]);
        && sel.Some? && sel.value in f.persons && Eligible(sel.value, e2.current.value)
        && s.engine.look == Look(Some(sel.value.id), Speed, Get(e.percepts, sel.value.id).attention, sel.value.human && !e.look.straight);
      s
  }

  /** A tick that is not idle selects against its first draw: with the
      gate open after the timer step, it moves exactly when SelectTarget
      picks someone from the registry by the frame's angle weights and the
      TDAs held before the tick. With nothing picked, just the selection
      draw is used. */
  lemma FixedUpdateSelects(e: Engine, f: Frame, draws: seq<real>)
    requires Valid(e) && FrameOk(f)
    requires TickDraws <= |draws| && UnitDraws(draws)
    requires e.current.Some? || |f.persons| > 0
    requires !f.inAction && e.nextTime < e.timeFrom + f.dt
    ensures
      var s := FixedUpdate(e, f, draws);
      var before := if e.current.Some? then e.current.value else f.persons[0].id;
      var sel := SelectTarget(f.persons, f.angleWeights, e.percepts, before, draws[0]);
      && (s.actuated <==> sel.Some?)
      && (sel.None? ==> s.rest == draws[1..])
  {
    var e2 := Prepare(e, f);
    SelectTargetReadsTda(f.persons, f.angleWeights, e2.percepts, e.percepts, e2.current.value, draws[0]);
  }

  /** When the tick's selection draw picks person p, the tick commits p:
      the look controller is aimed at p with speed 1 and stare = p's TDA,
      and straight gaze alternates for humans. */
  lemma FixedUpdateCommits(e: Engine, f: Frame, draws: seq<real>, p: Person)
    requires Valid(e) && FrameOk(f)
    requires TickDraws <= |draws| && UnitDraws(draws)
    requires e.current.Some? || |f.persons| > 0
    requires !f.inAction && e.nextTime < e.timeFrom + f.dt
    requires SelectTarget(f.persons, f.angleWeights, e.percepts, if e.current.Some? then e.current.value else f.persons[0].id, draws[0]) == Some(p)
    ensures FixedUpdate(e, f, draws).actuated
    ensures FixedUpdate(e, f, draws).engine.current == Some(p.id)
    ensures FixedUpdate(e, f, draws).engine.look == Look(Some(p.id), Speed, Get(e.percepts, p.id).attention, p.human && !e.look.straight)
  {
    var e2 := Prepare(e, f);
    SelectTargetReadsTda(f.persons, f.angleWeights, e2.percepts, e.percepts, e2.current.value, draws[0]);
    GazeTransitionCommits(e2, f.persons, f.angleWeights, f.inAction, f.dt, draws);
  }

  /** When the tick's selection draw picks person p, the next dwell time is
      drawn for p's TDA from the draws after the selection draw. */
  lemma FixedUpdateDwell(e: Engine, f: Frame, draws: seq<real>, p: Person)
    requires Valid(e) && FrameOk(f)
    requires TickDraws <= |draws| && UnitDraws(draws)
    requires e.current.Some? || |f.persons| > 0
    requires !f.inAction && e.nextTime < e.timeFrom + f.dt
    requires SelectTarget(f.persons, f.angleWeights, e.percepts, if e.current.Some? then e.current.value else f.persons[0].id, draws[0]) == Some(p)
    ensures PerceptionOk(Get(e.percepts, p.id)) && UnitDraws(draws[1..])
    ensures FixedUpdate(e, f, draws).engine.nextTime == DwellTime(Get(e.percepts, p.id).attention, draws[1..]).time
  {
    var e2 := Prepare(e, f);
    assert Get(e2.percepts, p.id).attention == Get(e.percepts, p.id).attention;
    UnitDrop(draws, 1);
    SelectTargetReadsTda(f.persons, f.angleWeights, e2.percepts, e.percepts, e2.current.value, draws[0]);
    GazeTransitionCommits(e2, f.persons, f.angleWeights, f.inAction, f.dt, draws);
  }

  /** When the tick's selection draw picks person p, the tick uses exactly
      the selection draw and the 2 * tries draws of the rejection loop; as
      `rest` is a suffix of `draws`, it is draws[1 + 2 * tries..]. */
  lemma FixedUpdateDraws(e: Engine, f: Frame, draws: seq<real>, p: Person)
    requires Valid(e) && FrameOk(f)
    requires TickDraws <= |draws| && UnitDraws(draws)
    requires e.current.Some? || |f.persons| > 0
    requires !f.inAction && e.nextTime < e.timeFrom + f.dt
    requires SelectTarget(f.persons, f.angleWeights, e.percepts, if e.current.Some? then e.current.value else f.persons[0].id, draws[0]) == Some(p)
    ensures PerceptionOk(Get(e.percepts, p.id)) && UnitDraws(draws[1..])
    ensures |FixedUpdate(e, f, draws).rest| == |draws| - 1 - 2 * DwellTime(Get(e.percepts, p.id).attention, draws[1..]).tries
  {
    var e2 := Prepare(e, f);
    assert Get(e2.percepts, p.id).attention == Get(e.percepts, p.id).attention;
    UnitDrop(draws, 1);
    SelectTargetReadsTda(f.persons, f.angleWeights, e2.percepts, e.percepts, e2.current.value, draws[0]);
    GazeTransitionCommits(e2, f.persons, f.angleWeights, f.inAction, f.dt, draws);
  }

  /** Every tick that is not idle updates the saliences of the registry:
      each human has its distance remembered and its distance salience
      recomputed, its approach salience advanced by one tick when it is
      listed once, and each non-human keeps its record. */
  lemma FixedUpdateSalience(e: Engine, f: Frame, draws: seq<real>, p: Person)
    requires Valid(e) && FrameOk(f)
    requires TickDraws <= |draws| && UnitDraws(draws)
    requires e.current.Some? || |f.persons| > 0
    requires Registry(f.persons) && p in f.persons
    ensures
      var r := Get(FixedUpdate(e, f, draws).engine.percepts, p.id);
      && (p.human ==> r.lastDistance == p.planarDistance && r.byDistance == DistanceSalience(p.planarDistance))
      && (p.human && Unique(f.persons) ==>
            r.byApproach == ApproachSalience(Get(e.percepts, p.id).byApproach, Get(e.percepts, p.id).lastDistance, p.planarDistance, f.dt))
      && (!p.human ==> r == Get(e.percepts, p.id))
  {
    if p.human {
      CompAttentionHuman(e.percepts, f.persons, f.dt, p);
      if Unique(f.persons) {
        CompAttentionApproach(e.percepts, f.persons, f.dt, p);
      }
    } else {
      CompAttentionNonHuman(e.percepts, f.persons, f.dt, p);
    }
  }

  /** After a scripted dwell time of `time`, a tick no longer than `time`
      leaves the gaze where it is. */
  lemma OverrideHoldsGaze(e: Engine, time: real, f: Frame, draws: seq<real>)
    requires Valid(e) && FrameOk(f)
    requires TickDraws <= |draws| && UnitDraws(draws)
    requires f.dt <= time
    ensures !FixedUpdate(OverrideGazeTransitionTime(e, time), f, draws).actuated
  {
  }

  /** Enough draws for every frame of a run. */
  predicate FramesOk(frames: seq<Frame>)
  {
    forall i :: 0 <= i < |frames| ==> FrameOk(frames[i])
  }

  predicate RunOk(frames: seq<Frame>, draws: seq<real>)
  {
    FramesOk(frames) && TickDraws * |frames| <= |draws| && UnitDraws(draws)
  }

  /** What one tick leaves over is enough for the remaining frames. */
  lemma RunOkTail(frames: seq<Frame>, draws: seq<real>, rest: seq<real>)
    requires RunOk(frames, draws) && |frames| > 0
    requires TookAtMost(draws, rest, TickDraws) && UnitDraws(rest)
    ensures RunOk(frames[1..], rest)
  {
    var n := |frames| - 1;
    assert TickDraws * |frames| == TickDraws * n + TickDraws;
  }

  /** Total simulated time of a run. */
  function TotalDt(frames: seq<Frame>): real
  {
    if |frames| == 0 then 0.0 else frames[0].dt + TotalDt(frames[1..])
  }

  /** A run of fixed updates; `actuated` says whether any tick moved the
      gaze. The invariant (saliences in [0, 1], TDA non-negative, timer
      non-negative) holds after every tick, and no tick changes a TDA. */
  function Run(e: Engine, frames: seq<Frame>, draws: seq<real>): (s: Step)
    requires Valid(e)
    requires RunOk(frames, draws)
    ensures Valid(s.engine)
    ensures forall id :: Get(s.engine.percepts, id).attention == Get(e.percepts, id).attention
    decreases |frames|
  {
    if |frames| == 0 then Step(e, draws, false)
    else
      var s := FixedUpdate(e, frames[0], draws);
      RunOkTail(frames, draws, s.rest);
      var t := Run(s.engine, frames[1..], s.rest);
      Step(t.engine, t.rest, s.actuated || t.actuated)
  }

  /** The dwell guarantee: while the time elapsed since the last
      transition has not passed the drawn dwell time, no tick moves the
      gaze, the target stays and the dwell time is kept. */
  lemma {:induction false} DwellHolds(e: Engine, frames: seq<Frame>, draws: seq<real>)
    requires Valid(e) && e.current.Some?
    requires RunOk(frames, draws)
    requires e.timeFrom + TotalDt(frames) <= e.nextTime
    ensures !Run(e, frames, draws).actuated
    ensures Run(e, frames, draws).engine.current == e.current
    ensures Run(e, frames, draws).engine.nextTime == e.nextTime
    ensures Run(e, frames, draws).engine.look == e.look
    decreases |frames|
  {
    if |frames| > 0 {
      var f := frames[0];
      assert FrameOk(f);
      assert TotalDt(frames[1..]) >= 0.0 by {
        TotalDtNonNegative(frames[1..]);
      }
      var s := FixedUpdate(e, f, draws);
      RunOkTail(frames, draws, s.rest);
      DwellHolds(s.engine, frames[1..], s.rest);
    }
  }

  /** While the look controller stays busy, no tick of a run moves the
      gaze, however much time passes; the target, dwell time and look
      controller stay. */
  lemma {:induction false} BusyHolds(e: Engine, frames: seq<Frame>, draws: seq<real>)
    requires Valid(e) && e.current.Some?
    requires RunOk(frames, draws)
    requires forall i :: 0 <= i < |frames| ==> frames[i].inAction
    ensures !Run(e, frames, draws).actuated
    ensures Run(e, frames, draws).engine.current == e.current
    ensures Run(e, frames, draws).engine.nextTime == e.nextTime
    ensures Run(e, frames, draws).engine.look == e.look
    decreases |frames|
  {
    if |frames| > 0 {
      var f := frames[0];
      assert FrameOk(f) && f.inAction;
      var s := FixedUpdate(e, f, draws);
      RunOkTail(frames, draws, s.rest);
      assert forall i :: 0 <= i < |frames[1..]| ==> frames[1..][i].inAction by {
        forall i | 0 <= i < |frames[1..]| ensures frames[1..][i].inAction {
          assert frames[1..][i] == frames[i + 1];
        }
      }
      BusyHolds(s.engine, frames[1..], s.rest);
    }
  }

  /** A freshly started component satisfies the invariant, and on its
      first tick it takes the first registry person and, since no dwell
      time has been drawn yet, moves on at once when the controller is
      idle, someone else is eligible and the draw is below 1. */
  lemma StartMovesOnFirstTick(look: Look, f: Frame, draws: seq<real>)
    requires FrameOk(f)
    requires TickDraws <= |draws| && UnitDraws(draws)
    requires |f.persons| > 0 && !f.inAction
    requires exists p :: p in f.persons && Eligible(p, f.persons[0].id)
    requires draws[0] < 1.0
    ensures Valid(Start(look))
    ensures FixedUpdate(Start(look), f, draws).actuated
  {
    SelectTargetSucceeds(f.persons, f.angleWeights, Prepare(Start(look), f).percepts, f.persons[0].id, draws[0]);
  }

  lemma {:induction false} TotalDtNonNegative(frames: seq<Frame>)
    requires FramesOk(frames)
    ensures TotalDt(frames) >= 0.0
    decreases |frames|
  {
    if |frames| > 0 {
      assert FrameOk(frames[0]);
      TotalDtNonNegative(frames[1..]);
    }
  }
}

=== FILE: dwell.dfy ===
/**
  The dwell time drawn after each gaze transition: bounded rejection
  sampling of x under a decreasing line whose extent depends on the new
  target's top-down attention.
 */
module Dwell {
  import opened Types

  const MaxTries: nat := 100          // rejection attempts before giving up
  const XPerSecond: real := 30.0 // the sampled x divided by this gives seconds
  const AttentionDwell: real := 0.5   // extra seconds per unit of attention

  /** A point of the plane (Unity's Vector2). */
  datatype Point = Point(x: real, y: real)

  /** The value at `x` of the line through `p1` and `p2`. */
  function LinearFunction(p1: Point, p2: Point, x: real): (r: real)
    requires p1.x != p2.x
    ensures x == p1.x ==> r == p1.y
    ensures x == p2.x ==> r == p2.y
    ensures (r - p1.y) * (p2.x - p1.x) == (x - p1.x) * (p2.y - p1.y)
  {
    var a := (p2.y - p1.y) / (p2.x - p1.x);
    var b := p1.y - p1.x * a;
    a * x + b
  }

  /** Horizontal extent of the sampling triangle: 100 at attention 0, 150
      at attention 1. */
  function XScale(attention: real): (r: real)
    ensures r == 100.0 + 50.0 * attention
  {
    LinearFunction(Point(0.0, 100.0), Point(1.0, 150.0), attention)
  }

  /** Vertical extent of the sampling triangle: 79 at attention 0, 32 at 1. */
  function YScale(attention: real): (r: real)
    ensures r == 79.0 - 47.0 * attention
  {
    LinearFunction(Point(0.0, 79.0), Point(1.0, 32.0), attention)
  }

  /** A sample point is kept when it lies strictly below the line from
      (0, yScale) down to (xScale, 0). */
  predicate Accepts(x: real, y: real, xScale: real, yScale: real)
    requires xScale != 0.0
  {
    var a := -(yScale / xScale);
    var b := yScale;
    y < a * x + b
  }

  /** The outcome of the sampling loop: the x it returns and how many
      iterations ran (each one consumes two draws). */
  datatype Sample = Sample(x: real, tries: nat)

  /** The x drawn in iteration t of the loop. */
  function DrawnX(draws: seq<real>, t: nat, xScale: real): real
    requires 2 * t < |draws|
  {
    draws[2 * t] * xScale
  }

  /** A draw in [0, 1] scaled by a positive extent stays within it. */
  lemma DrawnXInRange(draws: seq<real>, t: nat, xScale: real)
    requires 2 * t < |draws| && UnitDraws(draws)
    requires xScale > 0.0
    ensures 0.0 <= DrawnX(draws, t, xScale) <= xScale
  {
    var u := draws[2 * t];
    assert 0.0 <= u <= 1.0;
    assert u * xScale <= 1.0 * xScale;
  }

  /** Iteration t of the loop draws a point the line accepts. */
  predicate AcceptedAt(draws: seq<real>, t: nat, xScale: real, yScale: real)
    requires 2 * t + 1 < |draws|
    requires xScale != 0.0
  {
    Accepts(DrawnX(draws, t, xScale), draws[2 * t + 1] * yScale, xScale, yScale)
  }

  /** Iterations `i` onwards of the rejection loop: iteration t draws
      x from draws[2t] and y from draws[2t + 1], and the loop stops at the
      first accepted point or after MaxTries iterations, keeping the last x. */
  function RejectionSample(draws: seq<real>, xScale: real, yScale: real, i: nat): (s: Sample)
    requires xScale > 0.0
    requires i < MaxTries
    requires 2 * MaxTries <= |draws|
    requires UnitDraws(draws)
    ensures i < s.tries <= MaxTries
    ensures 0.0 <= s.x <= xScale
    ensures s.x == DrawnX(draws, s.tries - 1, xScale)
    ensures s.tries < MaxTries ==> AcceptedAt(draws, s.tries - 1, xScale, yScale)
    ensures forall t :: i <= t < s.tries - 1 ==> !AcceptedAt(draws, t, xScale, yScale)
    decreases MaxTries - i
  {
    DrawnXInRange(draws, i, xScale);
    if AcceptedAt(draws, i, xScale, yScale) || i + 1 == MaxTries then
      Sample(DrawnX(draws, i, xScale), i + 1)
    else
      RejectionSample(draws, xScale, yScale, i + 1)
  }

  /** A drawn dwell time: the seconds to wait, the x it came from, and
      how many loop iterations produced it. */
  datatype DwellDraw = DwellDraw(time: real, x: real, tries: nat)

  /** The next dwell time for a target with the given attention: the x
      of the first accepted point among the first MaxTries iterations (the
      last x drawn if none is accepted), divided by XPerSecond, plus AttentionDwell
      seconds per unit of attention. Consumes 2 * tries draws. */
  function DwellTime(attention: real, draws: seq<real>): (d: DwellDraw)
    requires attention >= 0.0
    requires 2 * MaxTries <= |draws|
    requires UnitDraws(draws)
    ensures 1 <= d.tries <= MaxTries
    ensures d.x == DrawnX(draws, d.tries - 1, XScale(attention))
    ensures d.tries < MaxTries ==> AcceptedAt(draws, d.tries - 1, XScale(attention), YScale(attention))
    ensures forall t :: 0 <= t < d.tries - 1 ==> !AcceptedAt(draws, t, XScale(attention), YScale(attention))
    ensures 0.0 <= d.x <= XScale(attention)
    ensures d.time == d.x / XPerSecond + AttentionDwell * attention
    ensures AttentionDwell * attention <= d.time <= XScale(attention) / XPerSecond + AttentionDwell * attention
  {
    var s := RejectionSample(draws, XScale(attention), YScale(attention), 0);
    DwellDraw(s.x / XPerSecond + attention * AttentionDwell, s.x, s.tries)
  }
}

=== FILE: salience.dfy ===
/**
  Bottom-up salience (CompAttention): for every human in the registry, a
  salience from planar distance and a salience from approach speed, and
  the distance remembered for the next tick.
 */
module Salience {
  import opened Types
  import opened Weights

  const NearDistance: real := 0.5      // [m] at or below: full salience
  const FarDistance: real := 2.0       // [m] at or above: base salience
  const BaseSalience: real := 0.07
  const MaxApproachSpeed: real := 10.0 // [m/s] approach speed of full salience
  const DecayTime: real := 3.0         // [s] from full salience to zero

  /** Salience from planar distance: piecewise linear, falling from 1 at
      NearDistance to BaseSalience at FarDistance, flat outside. */
  function DistanceSalience(d: real): (r: real)
    ensures BaseSalience <= r <= 1.0
    ensures d <= NearDistance ==> r == 1.0
    ensures d >= FarDistance ==> r == BaseSalience
  {
    (1.0 - (Clamp(d, NearDistance, FarDistance) - NearDistance) / (FarDistance - NearDistance)) * (1.0 - BaseSalience) + BaseSalience
  }

  /** Nearer is never less salient. */
  lemma DistanceSalienceMonotone(d1: real, d2: real)
    requires d1 <= d2
    ensures DistanceSalience(d1) >= DistanceSalience(d2)
  {
  }

  /** A person one metre away has distance salience 2/3 of the way from
      base to full: 0.69. */
  lemma DistanceSalienceAtOneMetre()
    ensures DistanceSalience(1.0) == 0.69
  {
  }

  /** Between the two thresholds the salience is strictly decreasing. */
  lemma DistanceSalienceStrict(d1: real, d2: real)
    requires NearDistance <= d1 < d2 <= FarDistance
    ensures DistanceSalience(d1) > DistanceSalience(d2)
  {
  }

  /** The distance-decrease salience: a one-sided leaky integrator. When
      the person approaches (the distance shrank since last tick) it jumps
      up to the normalised approach speed if that is higher; otherwise it
      decays linearly by dt / DecayTime and is clamped to [0, 1]. */
  function ApproachSalience(prev: real, lastDistance: real, d: real, dt: real): (r: real)
    requires dt > 0.0
    ensures 0.0 <= prev <= 1.0 ==> 0.0 <= r <= 1.0
    // approaching: never decreases, and reaches the normalised speed
    ensures lastDistance > d ==> r >= prev && r >= Clamp01((lastDistance - d) / dt / MaxApproachSpeed)
    // not approaching: drops by at most dt / DecayTime, never rises
    ensures lastDistance <= d && prev <= 1.0 ==> r >= prev - dt / DecayTime
    ensures lastDistance <= d && prev >= 0.0 ==> r <= prev
    // it only ever grows when the person approaches
    ensures r > prev && prev >= 0.0 ==> lastDistance > d
    // approaching: the larger of the old value and the clamped normalised speed
    ensures lastDistance > d ==> r == prev || r == Clamp01((lastDistance - d) / dt / MaxApproachSpeed)
    // not approaching: a linear decay of dt / DecayTime that stops at zero
    ensures lastDistance <= d && 0.0 <= prev <= 1.0 ==> r == 0.0 || r == prev - dt / DecayTime
  {
    var speed := (lastDistance - d) / dt;
    if speed > 0.0 then
      Max(prev, Clamp01(speed / MaxApproachSpeed))
    else
      Clamp01(prev - dt / DecayTime)
  }

  /** Without approach, a full salience is gone after DecayTime seconds of
      ticks: one tick of length at least DecayTime clears any value in [0, 1]. */
  lemma ApproachSalienceClears(prev: real, lastDistance: real, d: real, dt: real)
    requires dt >= DecayTime
    requires 0.0 <= prev <= 1.0
    requires lastDistance <= d
    ensures ApproachSalience(prev, lastDistance, d, dt) == 0.0
  {
  }

  /** A person standing still for several ticks: the approach salience
      after each tick of `dts` in turn, the last tick applied last. */
  function Fade(prev: real, d: real, dts: seq<real>): real
    requires Positive(dts)
  {
    if |dts| == 0 then prev
    else ApproachSalience(Fade(prev, d, dts[..|dts| - 1]), d, d, dts[|dts| - 1])
  }

  /** Standing still, the approach salience loses exactly 1 / DecayTime per
      second of ticks until it reaches zero, however the time is split into
      ticks. */
  lemma {:induction false} FadeIsLinear(prev: real, d: real, dts: seq<real>)
    requires 0.0 <= prev <= 1.0
    requires Positive(dts)
    ensures Fade(prev, d, dts) == Max(0.0, prev - Sum(dts) / DecayTime)
  {
    if |dts| > 0 {
      var n := |dts| - 1;
      FadeIsLinear(prev, d, dts[..n]);
      var before := Fade(prev, d, dts[..n]);
      assert Sum(dts) == Sum(dts[..n]) + dts[n];
      if prev - Sum(dts[..n]) / DecayTime < 0.0 {
        assert before == 0.0;
      }
    }
  }

  /** A salience in [0, 1] is gone once DecayTime seconds of ticks pass
      without approach. */
  lemma FadeClears(prev: real, d: real, dts: seq<real>)
    requires 0.0 <= prev <= 1.0
    requires Positive(dts)
    requires Sum(dts) >= DecayTime
    ensures Fade(prev, d, dts) == 0.0
  {
    FadeIsLinear(prev, d, dts);
  }

  /** One registry entry's update. A human gets both saliences recomputed
      and its distance remembered; a non-human only gets its record created. */
  function UpdatePerson(m: Perceptions, p: Person, dt: real): (m': Perceptions)
    requires dt > 0.0
    ensures m'.Keys == m.Keys + {p.id}
    ensures forall id :: id != p.id ==> Get(m', id) == Get(m, id)
    ensures Get(m', p.id).attention == Get(m, p.id).attention
    ensures p.human ==> Get(m', p.id).lastDistance == p.planarDistance
    ensures p.human ==> Get(m', p.id).byDistance == DistanceSalience(p.planarDistance)
    ensures p.human ==>
      Get(m', p.id).byApproach == ApproachSalience(Get(m, p.id).byApproach, Get(m, p.id).lastDistance, p.planarDistance, dt)
    ensures !p.human ==> Get(m', p.id) == Get(m, p.id)
    ensures PerceptionOk(Get(m, p.id)) ==> PerceptionOk(Get(m', p.id))
  {
    var info := Get(m, p.id);
    if p.human then
      var d := p.planarDistance;
      m[p.id := Perception(
        info.attention,
        DistanceSalience(d),
        ApproachSalience(info.byApproach, info.lastDistance, d, dt),
        d)]
    else
      m[p.id := info]
  }

  function Ids(persons: seq<Person>): set<PersonId>
  {
    set i | 0 <= i < |persons| :: persons[i].id
  }

  /** CompAttention: every registry entry updated in registry order. */
  function CompAttention(m: Perceptions, persons: seq<Person>, dt: real): (m': Perceptions)
    requires dt > 0.0
    ensures m'.Keys == m.Keys + Ids(persons)
    ensures forall id :: id !in Ids(persons) ==> Get(m', id) == Get(m, id)
    ensures forall id :: Get(m', id).attention == Get(m, id).attention
    ensures PerceptionsOk(m) ==> PerceptionsOk(m')
    decreases |persons|
  {
    if |persons| == 0 then m
    else
      var rest := persons[1..];
      assert Ids(persons) == {persons[0].id} + Ids(rest) by {
        forall id | id in Ids(persons) ensures id in {persons[0].id} + Ids(rest) {
          var i :| 0 <= i < |persons| && persons[i].id == id;
          if i > 0 { assert rest[i - 1] == persons[i]; }
        }
      }
      CompAttention(UpdatePerson(m, persons[0], dt), rest, dt)
  }

  lemma RegistryTail(persons: seq<Person>)
    requires Registry(persons) && |persons| > 0
    ensures Registry(persons[1..])
  {
    var rest := persons[1..];
    forall i, j | 0 <= i < |rest| && 0 <= j < |rest| && rest[i].id == rest[j].id
      ensures rest[i] == rest[j]
    {
      assert rest[i] == persons[i + 1] && rest[j] == persons[j + 1];
    }
  }

  /** After CompAttention every human of the registry has its current
      distance remembered and its distance salience recomputed. */
  lemma {:induction false} CompAttentionHuman(m: Perceptions, persons: seq<Person>, dt: real, p: Person)
    requires dt > 0.0
    requires Registry(persons)
    requires p in persons && p.human
    ensures Get(CompAttention(m, persons, dt), p.id).lastDistance == p.planarDistance
    ensures Get(CompAttention(m, persons, dt), p.id).byDistance == DistanceSalience(p.planarDistance)
    decreases |persons|
  {
    var rest := persons[1..];
    var m1 := UpdatePerson(m, persons[0], dt);
    RegistryTail(persons);
    if p in rest {
      CompAttentionHuman(m1, rest, dt, p);
    } else {
      assert persons[0] == p;
      forall i | 0 <= i < |rest| ensures rest[i].id != p.id {
        assert rest[i] == persons[i + 1];
      }
      assert p.id !in Ids(rest);
    }
  }

  /** In a registry listing each person once, CompAttention updates a
      human's approach salience exactly once, from the record it had before
      the pass. */
  lemma {:induction false} CompAttentionApproach(m: Perceptions, persons: seq<Person>, dt: real, p: Person)
    requires dt > 0.0
    requires Unique(persons)
    requires p in persons && p.human
    ensures Get(CompAttention(m, persons, dt), p.id).byApproach ==
            ApproachSalience(Get(m, p.id).byApproach, Get(m, p.id).lastDistance, p.planarDistance, dt)
    decreases |persons|
  {
    var rest := persons[1..];
    var m1 := UpdatePerson(m, persons[0], dt);
    assert Unique(rest) by {
      forall i, j | 0 <= i < j < |rest| ensures rest[i].id != rest[j].id {
        assert rest[i] == persons[i + 1] && rest[j] == persons[j + 1];
      }
    }
    if persons[0] == p {
      forall i | 0 <= i < |rest| ensures rest[i].id != p.id {
        assert rest[i] == persons[i + 1];
      }
      assert p.id !in Ids(rest);
    } else {
      var k :| 0 <= k < |persons| && persons[k] == p;
      assert k > 0 && rest[k - 1] == p;
      assert persons[0].id != p.id;
      CompAttentionApproach(m1, rest, dt, p);
    }
  }

  /** CompAttention leaves the record of a non-human exactly as it was. */
  lemma {:induction false} CompAttentionNonHuman(m: Perceptions, persons: seq<Person>, dt: real, p: Person)
    requires dt > 0.0
    requires Registry(persons)
    requires p in persons && !p.human
    ensures Get(CompAttention(m, persons, dt), p.id) == Get(m, p.id)
    decreases |persons|
  {
    var rest := persons[1..];
    var m1 := UpdatePerson(m, persons[0], dt);
    assert Get(m1, p.id) == Get(m, p.id) by {
      if persons[0].id == p.id {
        assert persons[0] == p;
      }
    }
    RegistryTail(persons);
    if p in rest {
      CompAttentionNonHuman(m1, rest, dt, p);
    } else {
      assert persons[0] == p;
      forall i | 0 <= i < |rest| ensures rest[i].id != p.id {
        assert rest[i] == persons[i + 1];
      }
      assert p.id !in Ids(rest);
    }
  }
}

=== FILE: selection.dfy ===
/**
  Target selection (the body of GazeTransition once the dwell gate is
  open): filter the registry into candidates, weight them by angular
  proximity to the current gaze, normalise, bias towards higher top-down
  attention, normalise again, and pick one by inverse-CDF sampling.
 */
module Selection {
  import opened Types
  import opened Weights

  const MinCandidateZ: real := 0.3    // persons nearer than this in z are skipped
  const MaxCandidateY: real := 2.0    // persons higher than this are skipped
  const TdaGain: real := 20.0         // weight added per unit of TDA advantage

  /** The position sanity check: a person in front and not too high. */
  predicate PlausiblePosition(pos: Vec3)
  {
    !(pos.z < MinCandidateZ || pos.y > MaxCandidateY)
  }

  /** A registry person may become the next target. */
  predicate Eligible(p: Person, current: PersonId)
  {
    p.id != current && PlausiblePosition(p.pos)
  }

  /** Registry indices from `i` on of the eligible persons, in registry order. */
  function CandidatesFrom(persons: seq<Person>, current: PersonId, i: nat): (ks: seq<nat>)
    requires i <= |persons|
    ensures forall j :: 0 <= j < |ks| ==> i <= ks[j] < |persons| && Eligible(persons[ks[j]], current)
    ensures forall k :: i <= k < |persons| && Eligible(persons[k], current) ==> k in ks
    ensures forall a, b :: 0 <= a < b < |ks| ==> ks[a] < ks[b]
    decreases |persons| - i
  {
    if i == |persons| then []
    else if Eligible(persons[i], current) then [i] + CandidatesFrom(persons, current, i + 1)
    else CandidatesFrom(persons, current, i + 1)
  }

  /** The candidate list: indices of every eligible registry person, each
      once, in registry order; nothing else. */
  function Candidates(persons: seq<Person>, current: PersonId): (ks: seq<nat>)
    ensures forall k: nat :: k in ks <==> k < |persons| && Eligible(persons[k], current)
    ensures forall a, b :: 0 <= a < b < |ks| ==> ks[a] < ks[b]
  {
    CandidatesFrom(persons, current, 0)
  }

  /** Normalisation of a weight list. The source divides by the total
      whether or not it is zero; a zero total of positive weights means an
      empty list, so that second division has nothing to divide. */
  function Normalize(ws: seq<real>): (r: seq<real>)
    requires Positive(ws)
    ensures |r| == |ws|
    ensures Positive(r)
    ensures |ws| > 0 ==> Sum(r) == 1.0
    ensures forall i :: 0 <= i < |ws| ==> r[i] * Sum(ws) == ws[i]
  {
    var total := Sum(ws);
    SumPositive(ws);
    if total != 0.0 then
      SumDivide(ws, total);
      assert total / total == 1.0;
      Divide(ws, total)
    else
      assert |ws| == 0;
      ws
  }

  /** The zero-total branch of a normalisation is taken exactly when there
      is no candidate. */
  lemma ZeroTotalOnlyWhenEmpty(ws: seq<real>)
    requires Positive(ws)
    ensures Sum(ws) == 0.0 <==> |ws| == 0
  {
    SumPositive(ws);
  }

  /** Normalising a normalised list changes nothing. */
  lemma NormalizeIdempotent(ws: seq<real>)
    requires Positive(ws)
    ensures Normalize(Normalize(ws)) == Normalize(ws)
  {
  }

  /** The top-down bias: every candidate whose TDA exceeds the current
      target's gets TdaGain times the difference added to its weight. */
  function Bias(ps: seq<real>, tdas: seq<real>, currentTda: real): (r: seq<real>)
    requires |tdas| == |ps|
    ensures |r| == |ps|
    ensures forall i :: 0 <= i < |ps| && tdas[i] > currentTda ==> r[i] == ps[i] + TdaGain * (tdas[i] - currentTda)
    ensures forall i :: 0 <= i < |ps| && tdas[i] <= currentTda ==> r[i] == ps[i]
    ensures forall i :: 0 <= i < |ps| ==> (r[i] > ps[i] <==> tdas[i] > currentTda)
    ensures Positive(ps) ==> Positive(r)
  {
    seq(|ps|, i requires 0 <= i < |ps| =>
      var diff := tdas[i] - currentTda;
      if diff > 0.0 then ps[i] + diff * TdaGain else ps[i])
  }

  /** The bias never reverses the order of two candidates when the one in
      front also has at least as much TDA. */
  lemma BiasKeepsOrder(ps: seq<real>, tdas: seq<real>, currentTda: real, i: nat, j: nat)
    requires |tdas| == |ps|
    requires i < |ps| && j < |ps|
    requires ps[i] >= ps[j] && tdas[i] >= tdas[j]
    ensures Bias(ps, tdas, currentTda)[i] >= Bias(ps, tdas, currentTda)[j]
  {
  }

  /** Walks the list accumulating weight from index `i` on, `acc` being the
      weight of the entries before `i`, and stops at the first entry whose
      cumulative weight exceeds `r`. */
  function PickFrom(ps: seq<real>, r: real, i: nat, acc: real): (k: Option<nat>)
    requires i <= |ps|
    requires acc == Sum(ps[..i])
    ensures k.Some? ==> i <= k.value < |ps| && r < Cum(ps, k.value)
    ensures k.Some? ==> forall j :: i <= j < k.value ==> r >= Cum(ps, j)
    ensures k.None? ==> forall j :: i <= j < |ps| ==> r >= Cum(ps, j)
    decreases |ps| - i
  {
    if i == |ps| then None
    else
      SumStep(ps, i);
      var acc' := acc + ps[i];
      if r < acc' then Some(i) else PickFrom(ps, r, i + 1, acc')
  }

  /** Inverse-CDF selection against one draw `r`: the first index whose
      cumulative weight exceeds `r`, or nothing. */
  function Pick(ps: seq<real>, r: real): (k: Option<nat>)
    ensures k.Some? ==> k.value < |ps| && r < Cum(ps, k.value)
    ensures k.Some? ==> forall j :: 0 <= j < k.value ==> r >= Cum(ps, j)
    ensures k.None? ==> forall j :: 0 <= j < |ps| ==> r >= Cum(ps, j)
  {
    PickFrom(ps, r, 0, 0.0)
  }

  /** Over non-negative weights, index k is picked exactly when `r` falls in
      [weight before k, weight through k): each candidate owns an interval
      as long as its weight. */
  lemma {:induction false} PickIsInverseCdf(ps: seq<real>, r: real, k: nat)
    requires NonNegative(ps)
    requires 0.0 <= r
    requires k < |ps|
    ensures Pick(ps, r) == Some(k) <==> Sum(ps[..k]) <= r < Cum(ps, k)
  {
    SumStep(ps, k);
    var res := Pick(ps, r);
    if res == Some(k) {
      if k > 0 {
        assert r >= Cum(ps, k - 1);
        assert ps[..k - 1 + 1] == ps[..k];
      } else {
        assert ps[..0] == [];
      }
    }
    if Sum(ps[..k]) <= r < Cum(ps, k) {
      forall j | 0 <= j < k ensures r >= Cum(ps, j) {
        PrefixMonotone(ps, j + 1, k);
      }
      assert res == Some(k);
    }
  }

  /** Nothing is picked exactly when `r` reaches the total weight. */
  lemma {:induction false} PickNoneIff(ps: seq<real>, r: real)
    requires NonNegative(ps)
    requires 0.0 <= r
    ensures Pick(ps, r).None? <==> r >= Sum(ps)
  {
    SumAll(ps);
    if Pick(ps, r).None? && |ps| > 0 {
      assert r >= Cum(ps, |ps| - 1);
    }
    if r >= Sum(ps) {
      forall j | 0 <= j < |ps| ensures r >= Cum(ps, j) {
        PrefixMonotone(ps, j + 1, |ps|);
      }
    }
  }

  /** Over a non-empty normalised list, a draw below 1 picks exactly one
      candidate; a draw of exactly 1 picks none. */
  lemma PickNormalized(ps: seq<real>, r: real)
    requires NonNegative(ps)
    requires |ps| > 0 && Sum(ps) == 1.0
    requires 0.0 <= r <= 1.0
    ensures Pick(ps, r).Some? <==> r < 1.0
  {
    PickNoneIff(ps, r);
  }

  /** Over non-negative weights, every index is picked exactly on its own
      interval of the draw. */
  lemma PickIntervals(ps: seq<real>, r: real)
    requires NonNegative(ps)
    requires 0.0 <= r
    ensures forall k :: 0 <= k < |ps| ==> (Pick(ps, r) == Some(k) <==> Sum(ps[..k]) <= r < Cum(ps, k))
  {
    forall k | 0 <= k < |ps| ensures Pick(ps, r) == Some(k) <==> Sum(ps[..k]) <= r < Cum(ps, k) {
      PickIsInverseCdf(ps, r, k);
    }
  }

  /** The angular weight of each candidate. The source clamps it at 0,
      which leaves a positive weight as it is. */
  function AngularWeights(ks: seq<nat>, angleWeights: seq<real>): (ws: seq<real>)
    requires forall j :: 0 <= j < |ks| ==> ks[j] < |angleWeights|
    ensures |ws| == |ks|
    ensures NonNegative(ws)
    ensures Positive(angleWeights) ==> Positive(ws) && forall j :: 0 <= j < |ks| ==> ws[j] == angleWeights[ks[j]]
  {
    seq(|ks|, j requires 0 <= j < |ks| => Max(0.0, angleWeights[ks[j]]))
  }

  /** The TDA of each candidate. */
  function CandidateTdas(persons: seq<Person>, ks: seq<nat>, m: Perceptions): (tdas: seq<real>)
    requires forall j :: 0 <= j < |ks| ==> ks[j] < |persons|
    ensures |tdas| == |ks|
  {
    seq(|ks|, j requires 0 <= j < |ks| => Get(m, persons[ks[j]].id).attention)
  }

  /** The weight the bias adds for a TDA advantage over `currentTda`. */
  function Boost(tda: real, currentTda: real): (b: real)
    ensures b >= 0.0
    ensures b > 0.0 <==> tda > currentTda
  {
    if tda > currentTda then TdaGain * (tda - currentTda) else 0.0
  }

  function Boosts(tdas: seq<real>, currentTda: real): (bs: seq<real>)
    ensures |bs| == |tdas|
    ensures NonNegative(bs)
  {
    seq(|tdas|, j requires 0 <= j < |tdas| => Boost(tdas[j], currentTda))
  }

  /** Entry j of `ps` is the normalised weight n[j] plus the boost bs[j],
      all divided by 1 + the total boost. */
  predicate SharesWithBoost(ps: seq<real>, n: seq<real>, bs: seq<real>)
    requires |ps| == |n| == |bs|
  {
    forall j :: 0 <= j < |ps| ==> ps[j] * (1.0 + Sum(bs)) == n[j] + bs[j]
  }

  /** Normalise, bias by TDA, normalise again. */
  function Reweight(ws: seq<real>, tdas: seq<real>, currentTda: real): (ps: seq<real>)
    requires |tdas| == |ws|
    requires Positive(ws)
    ensures |ps| == |ws|
    ensures Positive(ps)
    ensures |ws| > 0 ==> Sum(ps) == 1.0
  {
    Normalize(Bias(Normalize(ws), tdas, currentTda))
  }

  /** Dividing the boosted list b = n + bs by its total 1 + Sum(bs). The
      total is a parameter so that the sums stay folded. */
  lemma BoostedShares(ps: seq<real>, b: seq<real>, n: seq<real>, bs: seq<real>, total: real)
    requires |ps| == |b| == |n| == |bs|
    requires forall i :: 0 <= i < |ps| ==> ps[i] * total == b[i]
    requires forall i :: 0 <= i < |ps| ==> b[i] == n[i] + bs[i]
    requires total == 1.0 + Sum(bs)
    ensures SharesWithBoost(ps, n, bs)
  {
    assert forall i :: 0 <= i < |ps| ==> ps[i] * total == n[i] + bs[i];
  }

  /** The reweighted list gives each entry its normalised weight plus its
      boost, over 1 + the total boost. */
  lemma ReweightShares(ws: seq<real>, tdas: seq<real>, currentTda: real)
    requires |tdas| == |ws|
    requires Positive(ws)
    ensures SharesWithBoost(Reweight(ws, tdas, currentTda), Normalize(ws), Boosts(tdas, currentTda))
  {
    var n := Normalize(ws);
    var b := Bias(n, tdas, currentTda);
    var bs := Boosts(tdas, currentTda);
    if |ws| > 0 {
      BiasAddsBoosts(n, tdas, currentTda);
      NormalizeBoosted(b, n, bs);
    }
  }

  /** Normalising a list b = n + bs whose base part n sums to 1. */
  lemma NormalizeBoosted(b: seq<real>, n: seq<real>, bs: seq<real>)
    requires |b| == |n| == |bs|
    requires Positive(b) && Sum(n) == 1.0
    requires forall i :: 0 <= i < |b| ==> b[i] == n[i] + bs[i]
    ensures SharesWithBoost(Normalize(b), n, bs)
  {
    var ps, total := Normalize(b), Sum(b);
    NormalizeScales(b, ps, total);
    SumAdd(n, bs, b);
    BoostedShares(ps, b, n, bs, total);
  }

  /** Each normalised entry times the total gives back the entry. */
  lemma NormalizeScales(ws: seq<real>, r: seq<real>, total: real)
    requires Positive(ws) && r == Normalize(ws) && total == Sum(ws)
    ensures |r| == |ws|
    ensures forall i :: 0 <= i < |ws| ==> r[i] * total == ws[i]
  {
  }

  /** The bias adds exactly the boost to each entry. */
  lemma BiasAddsBoosts(n: seq<real>, tdas: seq<real>, currentTda: real)
    requires |tdas| == |n|
    ensures forall i :: 0 <= i < |n| ==> Bias(n, tdas, currentTda)[i] == n[i] + Boosts(tdas, currentTda)[i]
  {
  }

  /** The normalised, biased, renormalised weights of the candidates.
      Candidate j ends with its share of the angular weight (`Normalize`)
      plus its boost, all divided by 1 + the total boost. */
  function SelectionWeights(persons: seq<Person>, ks: seq<nat>, angleWeights: seq<real>, m: Perceptions, current: PersonId): (ps: seq<real>)
    requires |angleWeights| == |persons|
    requires Positive(angleWeights)
    requires forall j :: 0 <= j < |ks| ==> ks[j] < |persons|
    ensures |ps| == |ks|
    ensures Positive(ps)
    ensures |ks| > 0 ==> Sum(ps) == 1.0
  {
    Reweight(AngularWeights(ks, angleWeights), CandidateTdas(persons, ks, m), Get(m, current).attention)
  }

  /** The weight of each candidate: its share of the angular weight plus
      its TDA boost, over 1 + the total boost. */
  lemma SelectionWeightsShares(persons: seq<Person>, ks: seq<nat>, angleWeights: seq<real>, m: Perceptions, current: PersonId)
    requires |angleWeights| == |persons|
    requires Positive(angleWeights)
    requires forall j :: 0 <= j < |ks| ==> ks[j] < |persons|
    ensures SharesWithBoost(SelectionWeights(persons, ks, angleWeights, m, current),
                            Normalize(AngularWeights(ks, angleWeights)),
                            Boosts(CandidateTdas(persons, ks, m), Get(m, current).attention))
  {
    ReweightShares(AngularWeights(ks, angleWeights), CandidateTdas(persons, ks, m), Get(m, current).attention);
  }

  /** When no candidate has more TDA than the current target, the bias
      and the second normalisation change nothing: each candidate keeps
      its share of the angular weight (entry j times the total angular
      weight is angleWeights[ks[j]], by Normalize and AngularWeights). */
  lemma SelectionWeightsUnbiased(persons: seq<Person>, ks: seq<nat>, angleWeights: seq<real>, m: Perceptions, current: PersonId)
    requires |angleWeights| == |persons|
    requires Positive(angleWeights)
    requires forall j :: 0 <= j < |ks| ==> ks[j] < |persons|
    requires forall j :: 0 <= j < |ks| ==> Get(m, persons[ks[j]].id).attention <= Get(m, current).attention
    ensures SelectionWeights(persons, ks, angleWeights, m, current) == Normalize(AngularWeights(ks, angleWeights))
  {
    var ps := SelectionWeights(persons, ks, angleWeights, m, current);
    var n := Normalize(AngularWeights(ks, angleWeights));
    var bs := Boosts(CandidateTdas(persons, ks, m), Get(m, current).attention);
    SelectionWeightsShares(persons, ks, angleWeights, m, current);
    Unboosted(ps, n, bs);
  }

  /** With every boost zero, the shares are the normalised weights. */
  lemma Unboosted(ps: seq<real>, n: seq<real>, bs: seq<real>)
    requires |ps| == |n| == |bs|
    requires SharesWithBoost(ps, n, bs)
    requires forall i :: 0 <= i < |bs| ==> bs[i] == 0.0
    ensures ps == n
  {
    SumZero(bs);
    forall j | 0 <= j < |ps| ensures ps[j] == n[j] {
      UnitScale(ps[j], 1.0 + Sum(bs), n[j] + bs[j]);
    }
  }

  lemma UnitScale(x: real, t: real, y: real)
    requires x * t == y && t == 1.0
    ensures x == y
  {
  }

  /** The registry person of the candidate that `Pick` chooses. */
  function Choose(persons: seq<Person>, ks: seq<nat>, ps: seq<real>, r: real): (sel: Option<Person>)
    requires |ps| == |ks|
    requires forall j :: 0 <= j < |ks| ==> ks[j] < |persons|
    ensures sel.Some? ==> exists j :: 0 <= j < |ks| && sel.value == persons[ks[j]]
  {
    match Pick(ps, r)
    case None => None
    case Some(j) => Some(persons[ks[j]])
  }

  /** Over non-negative weights and a draw r >= 0, candidate j is chosen
      exactly when r falls in its interval, and nobody exactly when r
      reaches the total. */
  lemma ChooseIsInverseCdf(persons: seq<Person>, ks: seq<nat>, ps: seq<real>, r: real)
    requires |ps| == |ks|
    requires forall j :: 0 <= j < |ks| ==> ks[j] < |persons|
    requires NonNegative(ps)
    requires 0.0 <= r
    ensures forall j :: 0 <= j < |ks| && Sum(ps[..j]) <= r < Cum(ps, j) ==> Choose(persons, ks, ps, r) == Some(persons[ks[j]])
    ensures Choose(persons, ks, ps, r).Some? ==>
      exists j :: 0 <= j < |ks| && Sum(ps[..j]) <= r < Cum(ps, j) && Choose(persons, ks, ps, r).value == persons[ks[j]]
    ensures Choose(persons, ks, ps, r).None? <==> r >= Sum(ps)
  {
    PickIntervals(ps, r);
    PickNoneIff(ps, r);
  }

  /** The person chosen this tick, if any. `angleWeights[i]` is the weight
      exp(-angle / 10) of registry person i, the angle being measured at
      the head between the current target and that person. */
  function SelectTarget(persons: seq<Person>, angleWeights: seq<real>, m: Perceptions, current: PersonId, r: real): (sel: Option<Person>)
    requires |angleWeights| == |persons|
    requires Positive(angleWeights)
    ensures sel.Some? ==> sel.value in persons && Eligible(sel.value, current)
    ensures (forall p :: p in persons ==> !Eligible(p, current)) ==> sel.None?
  {
    var ks := Candidates(persons, current);
    var ps := SelectionWeights(persons, ks, angleWeights, m, current);
    Choose(persons, ks, ps, r)
  }

  /** Which person SelectTarget chooses: against a draw r >= 0, candidate j
      is chosen exactly when r falls in its interval of cumulative selection
      weight, and nobody is chosen exactly when r reaches the total. */
  lemma SelectTargetIsInverseCdf(persons: seq<Person>, angleWeights: seq<real>, m: Perceptions, current: PersonId, r: real)
    requires |angleWeights| == |persons|
    requires Positive(angleWeights)
    requires 0.0 <= r
    ensures
      var sel := SelectTarget(persons, angleWeights, m, current, r);
      var ks := Candidates(persons, current);
      var ps := SelectionWeights(persons, ks, angleWeights, m, current);
      && (forall j :: 0 <= j < |ks| && Sum(ps[..j]) <= r < Cum(ps, j) ==> sel == Some(persons[ks[j]]))
      && (sel.Some? ==> exists j :: 0 <= j < |ks| && Sum(ps[..j]) <= r < Cum(ps, j) && sel.value == persons[ks[j]])
      && (sel.None? <==> r >= Sum(ps))
  {
    var ks := Candidates(persons, current);
    var ps := SelectionWeights(persons, ks, angleWeights, m, current);
    ChooseIsInverseCdf(persons, ks, ps, r);
  }

  /** With at least one eligible person, a draw below 1 always selects. */
  lemma SelectTargetSucceeds(persons: seq<Person>, angleWeights: seq<real>, m: Perceptions, current: PersonId, r: real)
    requires |angleWeights| == |persons|
    requires Positive(angleWeights)
    requires 0.0 <= r < 1.0
    requires exists p :: p in persons && Eligible(p, current)
    ensures SelectTarget(persons, angleWeights, m, current, r).Some?
  {
    var p :| p in persons && Eligible(p, current);
    var i :| 0 <= i < |persons| && persons[i] == p;
    var ks := Candidates(persons, current);
    assert i in ks;
    PickNormalized(SelectionWeights(persons, ks, angleWeights, m, current), r);
  }

  /** The selection reads a perception record only through its TDA: two
      maps that agree on every TDA select the same person. */
  lemma SelectTargetReadsTda(persons: seq<Person>, angleWeights: seq<real>, m1: Perceptions, m2: Perceptions, current: PersonId, r: real)
    requires |angleWeights| == |persons|
    requires Positive(angleWeights)
    requires forall id :: Get(m1, id).attention == Get(m2, id).attention
    ensures SelectTarget(persons, angleWeights, m1, current, r) == SelectTarget(persons, angleWeights, m2, current, r)
  {
    var ks := Candidates(persons, current);
    assert CandidateTdas(persons, ks, m1) == CandidateTdas(persons, ks, m2);
    assert Get(m1, current).attention == Get(m2, current).attention;
  }
}

=== FILE: types.dfy ===
/**
  Data model of the gaze-attention component: the persons the registry
  supplies each tick, the per-person perception record the component
  attaches to them, the fields it writes on the look controller, and the
  component's own state.
 */
module Types {

  /** A reference that may be null. */
  datatype Option<T> = None | Some(value: T)

  /** Identity of a person object (the source compares persons by reference). */
  type PersonId = nat

  datatype Vec3 = Vec3(x: real, y: real, z: real)

  /** A person of the global registry as seen during one tick.
      `planarDistance` is the length of `pos` with its vertical component
      zeroed; the host computes it (the square root is not modelled). */
  datatype Person = Person(id: PersonId, pos: Vec3, human: bool, planarDistance: real)

  /** Same identity means same object: the registry cannot hold two
      different records for one person. */
  ghost predicate Registry(persons: seq<Person>)
  {
    forall i, j :: 0 <= i < |persons| && 0 <= j < |persons| && persons[i].id == persons[j].id ==> persons[i] == persons[j]
  }

  /** Each person appears in the registry once. */
  ghost predicate Unique(persons: seq<Person>)
  {
    forall i, j :: 0 <= i < j < |persons| ==> persons[i].id != persons[j].id
  }

  /** The attention record attached to a person.
      - `attention`: top-down attention (TDA), set only by an override
      - `byDistance`: salience from planar distance
      - `byApproach`: salience from the rate the distance decreases
      - `lastDistance`: planar distance seen on the previous tick */
  datatype Perception = Perception(attention: real, byDistance: real, byApproach: real, lastDistance: real)

  /** The record a person gets the first time it is looked up. */
  const Fresh: Perception := Perception(0.0, 0.0, 0.0, 0.0)

  type Perceptions = map<PersonId, Perception>

  /** Get-or-default lookup: reading a person that has no record yet sees
      the record that would be created for it. */
  function Get(m: Perceptions, id: PersonId): Perception
  {
    if id in m then m[id] else Fresh
  }

  /** The look-controller fields this component writes; `straight` is also read. */
  datatype Look = Look(target: Option<PersonId>, speed: real, stare: real, straight: bool)

  /** The state of one attention component.
      - `timeFrom`: seconds since the last gaze transition
      - `timeUntil`: last value given to the transition-time override (never read)
      - `nextTime`: dwell time that must elapse before the next transition */
  datatype Engine = Engine(
    current: Option<PersonId>,
    timeFrom: real,
    timeUntil: real,
    nextTime: real,
    percepts: Perceptions,
    look: Look)

  /** The state a freshly started component has, next to a given look controller. */
  function Start(look: Look): Engine
  {
    Engine(None, 0.0, 0.0, 0.0, map[], look)
  }

  /** Ranges every perception record keeps. */
  predicate PerceptionOk(p: Perception)
  {
    && p.attention >= 0.0
    && 0.0 <= p.byDistance <= 1.0
    && 0.0 <= p.byApproach <= 1.0
  }

  predicate PerceptionsOk(m: Perceptions)
  {
    forall id :: id in m ==> PerceptionOk(m[id])
  }

  /** The invariant every operation of the component preserves. */
  predicate Valid(e: Engine)
  {
    e.timeFrom >= 0.0 && PerceptionsOk(e.percepts)
  }

  /** Random.value draws: each in [0, 1], both ends included. */
  predicate UnitDraws(draws: seq<real>)
  {
    forall i :: 0 <= i < |draws| ==> 0.0 <= draws[i] <= 1.0
  }
}

=== FILE: weights.dfy ===
/**
  Real-valued helpers shared by the salience and selection steps: the
  clamps of Unity's Mathf, and sums over weight lists accumulated from the
  front, the order the source's loops add them in.
 */
module Weights {

  function Max(a: real, b: real): (r: real)
    ensures r >= a && r >= b && (r == a || r == b)
  {
    if a >= b then a else b
  }

  /** Mathf.Clamp(value, min, max). */
  function Clamp(value: real, lo: real, hi: real): (r: real)
    requires lo <= hi
    ensures lo <= r <= hi
    ensures lo <= value <= hi ==> r == value
    ensures value < lo ==> r == lo
    ensures value > hi ==> r == hi
  {
    if value < lo then lo else if value > hi then hi else value
  }

  /** Mathf.Clamp01(value). */
  function Clamp01(value: real): (r: real)
    ensures 0.0 <= r <= 1.0
  {
    Clamp(value, 0.0, 1.0)
  }

  /** Sum of a weight list; the last element is added last. */
  function Sum(s: seq<real>): real
  {
    if |s| == 0 then 0.0 else Sum(s[..|s| - 1]) + s[|s| - 1]
  }

  /** Cumulative weight of the entries 0..j, both included. */
  function Cum(s: seq<real>, j: nat): real
    requires j < |s|
  {
    Sum(s[..j + 1])
  }

  predicate NonNegative(s: seq<real>)
  {
    forall i :: 0 <= i < |s| ==> s[i] >= 0.0
  }

  predicate Positive(s: seq<real>)
  {
    forall i :: 0 <= i < |s| ==> s[i] > 0.0
  }

  /** Every entry divided by `t`. */
  function Divide(s: seq<real>, t: real): (r: seq<real>)
    requires t != 0.0
    ensures |r| == |s|
    ensures forall i :: 0 <= i < |s| ==> r[i] * t == s[i]
  {
    seq(|s|, i requires 0 <= i < |s| => s[i] / t)
  }

  /** Adding one more entry adds it to the running total. */
  lemma SumStep(s: seq<real>, k: nat)
    requires k < |s|
    ensures Sum(s[..k + 1]) == Sum(s[..k]) + s[k]
  {
    assert s[..k + 1][..k] == s[..k];
  }

  lemma SumAll(s: seq<real>)
    ensures Sum(s[..|s|]) == Sum(s)
  {
    assert s[..|s|] == s;
  }

  /** A sum of non-negative weights is non-negative. */
  lemma {:induction false} SumNonNegative(s: seq<real>)
    requires NonNegative(s)
    ensures Sum(s) >= 0.0
  {
    if |s| > 0 {
      SumNonNegative(s[..|s| - 1]);
    }
  }

  /** A non-empty list of positive weights has a positive sum. */
  lemma {:induction false} SumPositive(s: seq<real>)
    requires Positive(s)
    ensures Sum(s) >= 0.0
    ensures |s| > 0 ==> Sum(s) > 0.0
  {
    if |s| > 0 {
      SumPositive(s[..|s| - 1]);
    }
  }

  /** Dividing every entry divides the sum. */
  lemma {:induction false} SumDivide(s: seq<real>, t: real)
    requires t != 0.0
    ensures Sum(Divide(s, t)) == Sum(s) / t
  {
    if |s| > 0 {
      var n := |s| - 1;
      assert Divide(s, t)[..n] == Divide(s[..n], t);
      SumDivide(s[..n], t);
      assert Sum(Divide(s, t)) == Sum(s[..n]) / t + s[n] / t;
    }
  }

  /** Summing entry-wise sums: Sum(a + c) == Sum(a) + Sum(c). */
  lemma {:induction false} SumAdd(a: seq<real>, c: seq<real>, r: seq<real>)
    requires |a| == |c| == |r|
    requires forall i :: 0 <= i < |r| ==> r[i] == a[i] + c[i]
    ensures Sum(r) == Sum(a) + Sum(c)
  {
    if |r| > 0 {
      var n := |r| - 1;
      SumAdd(a[..n], c[..n], r[..n]);
    }
  }

  /** A list of zeros sums to zero. */
  lemma {:induction false} SumZero(s: seq<real>)
    requires forall i :: 0 <= i < |s| ==> s[i] == 0.0
    ensures Sum(s) == 0.0
  {
    if |s| > 0 {
      SumZero(s[..|s| - 1]);
    }
  }

  /** Over non-negative weights a longer prefix never sums to less. */
  lemma {:induction false} PrefixMonotone(s: seq<real>, i: nat, j: nat)
    requires NonNegative(s)
    requires i <= j <= |s|
    ensures Sum(s[..i]) <= Sum(s[..j])
    decreases j - i
  {
    if i < j {
      PrefixMonotone(s, i, j - 1);
      SumStep(s, j - 1);
    }
  }
}
